=== FILE: README.md ===
# Combo console line-item logic, in Dafny

This project models the pure list logic of an admin console that builds
and manages product "combos" (bundles of catalog products). Four pieces are
modelled as functions over immutable sequences:

- the **combo creator** screen: adding a product merges it into its line or
  appends a new line of quantity 1; the +/- buttons change a line's quantity
  by a delta clamped at 1; the trash button removes a line; an AI rule
  replaces the selection wholesale; the screen derives the total value, the
  total quantity and the distinct categories; creation is refused below two
  lines;
- the **combo management** screen: the list filtered by search text and
  status, the active/paused toggle, the list updates after a delete or a
  save, and the edit dialog's own reconciler. That reconciler ignores a
  duplicate add, sets an absolute quantity clamped at 1, and computes a
  total that counts a zero quantity as one;
- the **rule builder** panel: conditions and actions edited as indexed
  lists, the save gate on a non-empty name, and the active toggle;
- the **product picker**: the dropdown's product filter, and the state
  machine of its input box. The state is open/closed, the highlighted row,
  the search term and the category.

A further module, `CrossView`, relates the call sites. The edit dialog's
add and quantity setter agree with the creator's wherever they should. The
picker never offers a selected product, so the creator's selection stays
free of duplicate identities however the picker is used.

Products and lines share one identity type (`Items.Id`, a string) compared
with `==`. Lower-casing is a parameter `lower: string -> string` of every
search, so nothing depends on how letters are folded. `includes` is
`Text.Contains`, proved equal to "occurs at some offset".

Three points where the code's behaviour is easy to misread, and which the
model follows as written:

- "-" never removes a line. `handleQuantityChange`
  (src/pages/ComboCreator.tsx:93-95) clamps the new quantity with
  `Math.max(1, …)` before its `quantity > 0` filter, so "-" on a quantity of
  1 leaves 1 (`ComboCreator.ChangeQuantity`,
  `Scenarios.MinusOnSingleUnitKeepsLine`). The filter can only drop other,
  unmatched lines whose quantity was already 0 or less.
- A rule's text field is `description`. `ComboRule` declares a `note` field
  (src/types/index.ts:35), but the rule builder writes `description`
  (src/components/ComboRuleBuilder.tsx:9 and 108). The model's
  `RuleBuilder.Rule` carries `description`.
- Combos are matched on `id`. `Combo` declares `combo_id`
  (src/types/index.ts:23), but the management screen compares `combo.id`
  throughout (src/pages/ComboManagement.tsx:47, 59, 99, 104). The model
  gives a combo an `id: Option<Id>`. Saving treats a combo with no identity,
  or with the empty one, as new, as `!editingCombo.id` does.

## Model

| member | source | states |
|---|---|---|
| Items.SetQuantities | src/pages/ComboCreator.tsx:91-94 | the quantity map `p.id === id ? { ...p, quantity: f(p.quantity) } : p`: the length, every product and every other line are kept, and each line with that identity gets `f` of its old quantity |
| Items.RemoveId | src/pages/ComboCreator.tsx:100 | `filter(p => p.id !== id)`: the ordered subsequence of lines without that identity, their exact count, and the input itself when the identity is absent |
| ComboCreator.AddProduct | src/pages/ComboCreator.tsx:74-87 | a present identity keeps the length and raises exactly that line's quantity by 1, every other line and the order unchanged; an absent one appends `Line(p, 1)` after the unchanged prefix |
| ComboCreator.AddProductKeepsUnique | src/pages/ComboCreator.tsx:74-87 | selecting never creates a second line for an identity |
| ComboCreator.AddProductTotals | src/pages/ComboCreator.tsx:74-104 | with unique identities, selecting raises the quantity total by exactly 1 and the value total by the unit price of the merged line (or of the new product) |
| ComboCreator.AddThenRemove | src/pages/ComboCreator.tsx:84-101 | removing a product just appended gives back the original selection |
| ComboCreator.DropEmpty | src/pages/ComboCreator.tsx:95 | the `quantity > 0` filter keeps, in order, every positive line and only those, as many as there are, and changes nothing when all are positive |
| ComboCreator.ChangeQuantity | src/pages/ComboCreator.tsx:89-97 | every output quantity is at least 1; the matched line survives at `max(1, q + change)`; on a selection of positive quantities the length is kept and only matched lines change |
| ComboCreator.RemoveProduct | src/pages/ComboCreator.tsx:99-101 | the result is the subsequence of lines without that identity (their exact count), and equals the input when the identity is absent |
| Items.RemoveIdIdempotent | src/pages/ComboCreator.tsx:99-101 | removing an identity twice equals removing it once |
| Items.RemoveIdKeepsUnique | src/pages/ComboManagement.tsx:85-88 | removal keeps identities unique |
| Items.RemoveIdAppend | src/pages/ComboCreator.tsx:100 | removal distributes over concatenation |
| ComboCreator.ReconcilerKeepsWellFormed | src/pages/ComboCreator.tsx:74-101 | on a selection with one line per identity and every quantity at least 1, selecting, +/- and the trash button each keep both properties |
| ComboCreator.AddKeepsWellFormed | src/pages/ComboCreator.tsx:74-87 | selecting keeps one line per identity and every quantity at least 1 |
| ComboCreator.ChangeKeepsWellFormed | src/pages/ComboCreator.tsx:89-97 | +/- keeps one line per identity and every quantity at least 1 |
| ComboCreator.RemoveKeepsWellFormed | src/pages/ComboCreator.tsx:99-101 | the trash button keeps one line per identity and every quantity at least 1 |
| ComboCreator.TotalValue | src/pages/ComboCreator.tsx:103 | definition: the sum of price × quantity over the lines, the value the `reduce` computes; its properties are the totals lemmas below |
| ComboCreator.TotalQuantity | src/pages/ComboCreator.tsx:104 | definition: the sum of the quantities over the lines, the value the `reduce` computes; its properties are the totals lemmas below |
| ComboCreator.TotalsAppend | src/pages/ComboCreator.tsx:103-104 | both totals add up over concatenated selections |
| ComboCreator.TotalQuantityAtLeastLineCount | src/pages/ComboCreator.tsx:104 | with quantities of at least 1 the quantity total is at least the line count |
| ComboCreator.TotalValueNonNegative | src/pages/ComboCreator.tsx:103 | non-negative prices and quantities give a non-negative value total |
| ComboCreator.Scale | src/pages/ComboCreator.tsx:103-104 | scaling multiplies every quantity by the factor and keeps each line's product |
| ComboCreator.TotalsScale | src/pages/ComboCreator.tsx:103-104 | both totals are linear: multiplying every quantity by c multiplies them by c |
| ComboCreator.TotalsAfterSetQuantity | src/pages/ComboCreator.tsx:89-104 | changing one identity's quantity from q to f(q) moves the quantity total by f(q) - q and the value total by price × (f(q) - q) |
| ComboCreator.Categories | src/pages/ComboCreator.tsx:105 | `lines.map(p => p.category)`: one category per line, in line order |
| ComboCreator.UniqueCategories | src/pages/ComboCreator.tsx:105 | the result holds each line's category exactly once, nothing else, ordered by first occurrence |
| ComboCreator.CreateCombo | src/pages/ComboCreator.tsx:114-134 | creation fails with `TooFewProducts` iff fewer than 2 lines; otherwise the combo carries the draft's name, description, lines and their value total |
| ComboCreator.CanCreate | src/pages/ComboCreator.tsx:166 | definition: at least two lines, the negation of the button's `disabled` condition |
| ComboCreator.CreateGateMatchesButton | src/pages/ComboCreator.tsx:166 | the create button is enabled exactly when creation succeeds |
| ComboCreator.FindProduct | src/pages/ComboCreator.tsx:143 | finds a product iff the catalog has that identity, and it is the first such product |
| ComboCreator.SuggestedLines | src/pages/ComboCreator.tsx:142-150 | every suggested line has quantity 1 and a catalog product named by the rule, and that product is the one `find` returns, the first catalog product with its identity |
| ComboCreator.SuggestedLinesIds | src/pages/ComboCreator.tsx:142-144 | the suggested identities are the rule's identities known to the catalog, in the rule's order |
| ComboCreator.AllSuggestedFound | src/pages/ComboCreator.tsx:142-150 | when the catalog knows every rule identity the lines follow the rule one-to-one |
| ComboCreator.ApplyRule | src/pages/ComboCreator.tsx:136-154 | name and description come from the rule; the lines are only the rule's catalog products at quantity 1, in rule order, each the first catalog product with its identity; no prior line survives |
| ComboManagement.MatchesSearch | src/pages/ComboManagement.tsx:41 | definition: the lower-cased name, or some product's lower-cased name, contains the lower-cased term |
| ComboManagement.MatchesStatus | src/pages/ComboManagement.tsx:42 | definition: the filter is "all" or equals the combo's status |
| ComboManagement.FilterCombos | src/pages/ComboManagement.tsx:40-44 | the shown combos are the subsequence of combos whose lower-cased name or some product name contains the lower-cased term and whose status passes the filter, each match kept (their exact count) |
| ComboManagement.EmptySearchShowsAll | src/pages/ComboManagement.tsx:40-44 | an empty term with status "all" shows every combo |
| ComboManagement.Toggled | src/pages/ComboManagement.tsx:47 | the new status is "active" or "paused", and differs from a known old one |
| ComboManagement.ToggleStatus | src/pages/ComboManagement.tsx:46-48 | the length is kept; only combos with that identity change, and only in their status |
| ComboManagement.ToggleStatusTwice | src/pages/ComboManagement.tsx:46-48 | two toggles restore a list of active/paused combos |
| ComboManagement.UnknownStatusNotRestored | src/pages/ComboManagement.tsx:47 | any other status ends up "paused" after two toggles |
| ComboManagement.RemoveCombo | src/pages/ComboManagement.tsx:59 | after a delete the list is exactly the subsequence of combos without that identity |
| ComboManagement.RemoveComboIdempotent | src/pages/ComboManagement.tsx:59 | deleting the same identity twice equals deleting it once |
| ComboManagement.IsUnsaved | src/pages/ComboManagement.tsx:99 | definition: `!editingCombo.id`, i.e. no identity or the empty one |
| ComboManagement.ApplySave | src/pages/ComboManagement.tsx:95-105 | an unsaved draft's result is appended; otherwise it replaces every combo with the draft's identity in place, length and order kept |
| ComboManagement.ApplySaveStable | src/pages/ComboManagement.tsx:103-104 | when the stored combo keeps the draft's identity, no combo in the list changes identity and saving again changes nothing |
| ComboManagement.SavePayload | src/pages/ComboManagement.tsx:99-103 | the saved body is the draft with only its total replaced by the edit total |
| ComboManagement.AddToEdit | src/pages/ComboManagement.tsx:50-54 | no draft or a present identity: nothing changes; otherwise exactly `Line(p, 1)` is appended and nothing else changes |
| ComboManagement.AddToEditKeepsUnique | src/pages/ComboManagement.tsx:50-54 | the edit add keeps identities unique |
| ComboManagement.SetQuantity | src/pages/ComboManagement.tsx:82 | matched lines get the absolute quantity `max(1, n)`; the length and the other lines are unchanged |
| ComboManagement.SetQuantityIdempotent | src/pages/ComboManagement.tsx:80-83 | setting the same quantity twice equals setting it once |
| ComboManagement.UpdateEditQuantity | src/pages/ComboManagement.tsx:80-83 | without a draft nothing happens; otherwise only the draft's lines change, by `SetQuantity` |
| ComboManagement.RemoveFromEdit | src/pages/ComboManagement.tsx:85-88 | without a draft nothing happens; otherwise the lines become exactly the ordered subsequence without that identity |
| ComboManagement.EffectiveQuantity | src/pages/ComboManagement.tsx:92 | `quantity \|\| 1` turns 0 into 1, keeps every non-zero quantity, and so is never 0 |
| ComboManagement.EditLinesTotal | src/pages/ComboManagement.tsx:92 | definition: the sum of price × (quantity \|\| 1) over the draft's lines; tied to the creator's total by the lemmas below |
| ComboManagement.EditTotal | src/pages/ComboManagement.tsx:90-93 | the edit total is 0 without a draft |
| CrossView.EditTotalIsTotalWithZeroAsOne | src/pages/ComboManagement.tsx:90-93 | for every list of lines, the edit total equals the creator's value total of the same lines with each zero quantity read as 1 |
| CrossView.EditTotalMatchesTotalValue | src/pages/ComboManagement.tsx:90-93 | with no zero quantity the edit total equals the creator's value total |
| CrossView.EditTotalCountsZeroAsOne | src/pages/ComboManagement.tsx:92 | a zero-quantity line still counts one unit in the edit total |
| CrossView.EditAddAgreesOnNewProducts | src/pages/ComboManagement.tsx:50-54 | for an absent product the edit add and the creator add give the same lines; for a present one only the creator changes them |
| CrossView.AbsoluteMatchesRelative | src/pages/ComboManagement.tsx:80-83 | on unique, positive lines, setting `q + change` equals the creator's change by `change` |
| CrossView.IncrementIsReselect | src/pages/ComboCreator.tsx:89-97 | the creator's "+" on a present product equals selecting it again |
| CrossView.PickedProductIsAppended | src/components/ProductSearchSelect.tsx:27-32 | a product handed over by the picker is never already selected, so the creator appends it at quantity 1 after the unchanged prefix |
| CrossView.PickerSessionKeepsSelectionUnique | src/components/ProductSearchSelect.tsx:27-89 | over any sequence of picker events the selection keeps unique identities and only grows at its end |
| RuleBuilder.AddCondition | src/components/ComboRuleBuilder.tsx:51-58 | appends exactly one `{category, equals, ''}`; the rest of the draft is unchanged |
| RuleBuilder.RemoveCondition | src/components/ComboRuleBuilder.tsx:69-76 | an in-range index shrinks the list by one, keeping the others in order; any other index changes nothing |
| RuleBuilder.EditCondition | src/components/ComboRuleBuilder.tsx:90 | only the named field takes the new value |
| RuleBuilder.UpdateCondition | src/components/ComboRuleBuilder.tsx:87-93 | only that field of condition i changes; the length and all other conditions are unchanged |
| RuleBuilder.UpdateThenRemoveCondition | src/components/ComboRuleBuilder.tsx:69-93 | editing a condition and then removing it equals removing it, so the edit touched only that row |
| RuleBuilder.AddThenRemoveCondition | src/components/ComboRuleBuilder.tsx:51-76 | removing the condition just added gives back the draft |
| RuleBuilder.AddAction | src/components/ComboRuleBuilder.tsx:60-67 | appends exactly one `{discount_percentage, 0}`; the rest of the draft is unchanged |
| RuleBuilder.RemoveAction | src/components/ComboRuleBuilder.tsx:78-85 | an in-range index shrinks the list by one, keeping the others in order; any other index changes nothing |
| RuleBuilder.EditAction | src/components/ComboRuleBuilder.tsx:98 | only the named field takes the new value |
| RuleBuilder.UpdateAction | src/components/ComboRuleBuilder.tsx:95-101 | only that field of action i changes; the length and all other actions are unchanged |
| RuleBuilder.UpdateThenRemoveAction | src/components/ComboRuleBuilder.tsx:78-101 | editing an action and then removing it equals removing it, so the edit touched only that row |
| RuleBuilder.AddThenRemoveAction | src/components/ComboRuleBuilder.tsx:60-85 | removing the action just added gives back the draft |
| Seqs.DropPosition | src/components/ComboRuleBuilder.tsx:73 | definition: the index filter `filter((_, i) => i !== index)`, keeping each element whose position differs from the index |
| Seqs.DropPositionIsRemoveAt | src/components/ComboRuleBuilder.tsx:73 | the index filter `filter((_, i) => i !== index)` removes exactly the element at that index, or nothing when it is out of range |
| RuleBuilder.SaveRule | src/components/ComboRuleBuilder.tsx:103-117 | an empty name saves nothing; otherwise one rule is appended with the draft's fields, the new identity and active set, and the form resets to the empty draft and closes |
| RuleBuilder.SavedRuleIsActive | src/components/ComboRuleBuilder.tsx:111 | the saved rule is active even when the draft's flag was off |
| RuleBuilder.ToggleRule | src/components/ComboRuleBuilder.tsx:119-123 | only rules with that identity change, and only in their active flag; the length is kept |
| RuleBuilder.ToggleSavedRule | src/components/ComboRuleBuilder.tsx:103-123 | toggling a just-saved rule with a fresh identity leaves every earlier rule as it was and makes only the new rule inactive |
| RuleBuilder.ToggleRuleTwice | src/components/ComboRuleBuilder.tsx:119-123 | toggling twice is the identity |
| Text.Contains | src/components/ProductSearchSelect.tsx:28 | definition of `includes`: the term is a prefix of the text or of one of its suffixes |
| Text.ContainsIffOccurs | src/components/ProductSearchSelect.tsx:28 | `includes` holds iff the term occurs at some offset |
| ProductPicker.Offered | src/components/ProductSearchSelect.tsx:28-31 | definition: the lower-cased name contains the lower-cased term, the category chip is "all" or the product's category, and no selected line has the identity |
| ProductPicker.Visible | src/components/ProductSearchSelect.tsx:27-32 | the rows are the subsequence of catalog products matching term and category and not selected, each such product kept (their exact count); none shares an identity with a selected line |
| ProductPicker.AfterAdd | src/components/ProductSearchSelect.tsx:83-89 | after a hand-over the term is empty, the dropdown closed and the highlight -1 |
| ProductPicker.PressKey | src/components/ProductSearchSelect.tsx:48-81 | closed: Enter/ArrowDown open at row 0, other keys do nothing; open: the arrows move the highlight by one without passing the list's ends; Enter hands over exactly the highlighted row, and only when it is a real row; Escape closes and clears the highlight |
| ProductPicker.Handle | src/components/ProductSearchSelect.tsx:119-124 | typing sets the term, opens and clears the highlight; a click hands over exactly the clicked row; any handed-over product is one of the rows |
| ProductPicker.PressKeyKeepsRange | src/components/ProductSearchSelect.tsx:58-68 | every key keeps `-1 <= highlight <= max(0, rows - 1)` for the same rows |
| ProductPicker.InitialArrowKeysStayInRange | src/components/ProductSearchSelect.tsx:59-68 | from the first render (closed, no highlight, empty term) any run of arrow keys keeps the highlight in range and the term empty |
| ProductPicker.ArrowKeysStayInRange | src/components/ProductSearchSelect.tsx:59-68 | any run of arrow keys keeps the highlight in range and the term unchanged |
| Scenarios.SelectTwiceMerges | src/pages/ComboCreator.tsx:74-86 | selecting the sample iPhone twice gives one line of 2 worth 59 980 000 |
| Scenarios.MinusOnSingleUnitKeepsLine | src/pages/ComboCreator.tsx:89-97 | "-" on a quantity of 1 leaves both lines, so creation stays allowed |
| Scenarios.RuleReplacesSelectionInRuleOrder | src/pages/ComboCreator.tsx:136-154 | a rule with an unknown identity yields the known products in rule order, at quantity 1 |

## Left out

- The HTTP calls of `src/service/comboService.ts` (fetch, create, update, delete) are network I/O and are not modelled. The stored combo a save returns is a parameter of `ComboManagement.ApplySave`. A failed call leaves the list as it was; only the update after success is modelled.
- React state plumbing is not modelled: `useState`/`useEffect`, the modals, `closeModals`, `openEditModal`, `setShowAIRules`, `setIsCreating(true)`, and the plain field setters of the forms. Only the list update each handler applies is modelled.
- `formatPrice` and `formatDate` wrap `Intl.NumberFormat` and `Date`, which are foreign library calls.
- Lower-casing is not modelled: Unicode `toLowerCase` is a parameter `lower`.
- The `number | string` identity and the `String(product.id)` coercion of the edit dialog are not modelled: one string identity type is used throughout.
- Clock-derived values are parameters. The rule identity from `Date.now()` is `newId` of `RuleBuilder.SaveRule`. The creation date is `createdAt` of `ComboCreator.CreateCombo`.
- `handleCreateCombo`'s `console.log` and `alert` are output only. The gate and the assembled combo are modelled.
- Focus and blur on the input, and the click-outside listener of the picker, are DOM side effects.
- ProductPicker.Handle: a row click leaves the dropdown closed. In the running component, `handleAddProduct` ends with `inputRef.current?.focus()` (src/components/ProductSearchSelect.tsx:88). After a click the input has lost focus, so that call fires `onFocus` (line 124) again and reopens the dropdown. The model treats that re-focus as a separate `Focus` event that a caller may apply.
- Optional fields are not modelled: `popularity`, `margin`, `image`, `sku`, and the `?.` chains on a combo's name and products. A line whose quantity is missing is represented with quantity 0, which `quantity || 1` treats the same way.
- JavaScript numbers are modelled as unbounded integers. Prices are whole VND. A `NaN` from `Number(e.target.value)` has no counterpart.
- RuleBuilder.UpdateCondition: requires the index to be in range. The form only calls it with the index of a rendered row; an out-of-range index would grow the array with a partial record that the model's types cannot hold.
- RuleBuilder.UpdateAction: requires the index to be in range, for the same reason.
- The `if (newRule.conditions)` / `if (newRule.actions)` guards of the rule builder are not modelled: every draft state the panel reaches holds both lists.
- src/pages/MarketBasket.tsx, src/pages/Analytics.tsx, src/components/ComboPreview.tsx, src/components/Sidebar.tsx and src/App.tsx are not part of this model. They hold static mock data, presentation and routing.
- `createCombo`, imported at src/pages/ComboManagement.tsx:3, is not exported by src/service/comboService.ts. So the append branch of the save handler (src/pages/ComboManagement.tsx:100-101), which `ComboManagement.ApplySave` models, cannot run as the program stands. The model follows the handler's text.
- The edit dialog's picker receives `availableProducts`, an empty list (src/pages/ComboManagement.tsx:24-26, 389). So `ComboManagement.AddToEdit` is never reached through the picker as the program stands. The model follows `addProductToEdit`'s text.
- All JSX and styling are left out.

=== FILE: combo_creator.dfy ===
/**
 The combo creator screen: the line-item reconciler behind its buttons
 (add, +/- quantity, remove, apply an AI rule), the totals it shows, and
 the "at least two products" gate in front of creation.
 */
module ComboCreator {
  import opened Seqs
  import opened Items

  // ---------------------------------------------------------------------
  // Reconciler
  // ---------------------------------------------------------------------

  /**
   Selecting a product: an existing line with the same identity gets one
   more unit; otherwise the product is appended as a new line of quantity 1.
   */
  function AddProduct(lines: seq<Line>, p: Product): (r: seq<Line>)
    ensures HasId(lines, p.id) ==> |r| == |lines|
    ensures HasId(lines, p.id) ==> forall k :: 0 <= k < |lines| ==>
      r[k].product == lines[k].product &&
      r[k].quantity == (if lines[k].product.id == p.id then lines[k].quantity + 1 else lines[k].quantity)
    ensures !HasId(lines, p.id) ==> |r| == |lines| + 1 && r[..|lines|] == lines && r[|lines|] == Line(p, 1)
  {
    if HasId(lines, p.id) then SetQuantities(lines, p.id, q => q + 1)
    else lines + [Line(p, 1)]
  }

  /** `quantity > 0` filter that follows every quantity change. */
  function DropEmpty(lines: seq<Line>): (r: seq<Line>)
    ensures IsSubseq(r, lines)
    ensures |r| == CountIf(lines, (l: Line) => l.quantity > 0)
    ensures forall k :: 0 <= k < |r| ==> r[k].quantity > 0
    ensures forall k :: 0 <= k < |lines| && lines[k].quantity > 0 ==> lines[k] in r
    ensures AllPositive(lines) ==> r == lines
  {
    var r := Filter(lines, (l: Line) => l.quantity > 0);
    if AllPositive(lines) then
      FilterKeepsAll(lines, (l: Line) => l.quantity > 0);
      r
    else r
  }

  /**
   The +/- buttons: the matching line's quantity becomes
   `max(1, quantity + change)`, then lines with a non-positive quantity are
   dropped. Because of the clamp the matching line itself always survives.
   */
  function ChangeQuantity(lines: seq<Line>, id: Id, change: int): (r: seq<Line>)
    ensures AllPositive(r)
    ensures forall k :: 0 <= k < |lines| && lines[k].product.id == id ==>
      lines[k].(quantity := Max(1, lines[k].quantity + change)) in r
    ensures AllPositive(lines) ==> |r| == |lines|
    ensures AllPositive(lines) ==> forall k :: 0 <= k < |lines| ==>
      r[k].product == lines[k].product &&
      r[k].quantity == (if lines[k].product.id == id then Max(1, lines[k].quantity + change) else lines[k].quantity)
  {
    var mapped := SetQuantities(lines, id, q => Max(1, q + change));
    assert forall k :: 0 <= k < |lines| && lines[k].product.id == id ==>
      mapped[k] == lines[k].(quantity := Max(1, lines[k].quantity + change));
    DropEmpty(mapped)
  }

  /** The trash button: drops every line with identity `id`. */
  function RemoveProduct(lines: seq<Line>, id: Id): (r: seq<Line>)
    ensures IsSubseq(r, lines)
    ensures |r| == CountIf(lines, (l: Line) => l.product.id != id)
    ensures !HasId(r, id)
    ensures forall k :: 0 <= k < |lines| && lines[k].product.id != id ==> lines[k] in r
    ensures !HasId(lines, id) ==> r == lines
  {
    RemoveId(lines, id)
  }

  // ---------------------------------------------------------------------
  // Derived totals
  // ---------------------------------------------------------------------

  /** Sum of `price * quantity` over the lines, using each line's stored price. */
  function TotalValue(lines: seq<Line>): int
  {
    if |lines| == 0 then 0
    else lines[0].product.price * lines[0].quantity + TotalValue(lines[1..])
  }

  /** Sum of the quantities. */
  function TotalQuantity(lines: seq<Line>): int
  {
    if |lines| == 0 then 0 else lines[0].quantity + TotalQuantity(lines[1..])
  }

  lemma {:induction false} TotalsAppend(a: seq<Line>, b: seq<Line>)
    ensures TotalValue(a + b) == TotalValue(a) + TotalValue(b)
    ensures TotalQuantity(a + b) == TotalQuantity(a) + TotalQuantity(b)
  {
    if |a| == 0 {
      assert a + b == b;
    } else {
      var ab := a + b;
      assert ab[0] == a[0];
      assert ab[1..] == a[1..] + b;
      TotalsAppend(a[1..], b);
      assert TotalValue(ab) == ab[0].product.price * ab[0].quantity + TotalValue(ab[1..]);
      assert TotalQuantity(ab) == ab[0].quantity + TotalQuantity(ab[1..]);
    }
  }

  /** With every quantity at least 1 the quantity total is at least the number of lines. */
  lemma {:induction false} TotalQuantityAtLeastLineCount(lines: seq<Line>)
    requires AllPositive(lines)
    ensures TotalQuantity(lines) >= |lines|
  {
    if |lines| > 0 {
      TotalQuantityAtLeastLineCount(lines[1..]);
    }
  }

  /** Non-negative prices and quantities give a non-negative total value. */
  lemma {:induction false} TotalValueNonNegative(lines: seq<Line>)
    requires forall k :: 0 <= k < |lines| ==> lines[k].product.price >= 0 && lines[k].quantity >= 0
    ensures TotalValue(lines) >= 0
  {
    if |lines| > 0 {
      TotalValueNonNegative(lines[1..]);
    }
  }

  /** Every quantity multiplied by `c`. */
  function Scale(lines: seq<Line>, c: int): (r: seq<Line>)
    ensures |r| == |lines|
    ensures forall k :: 0 <= k < |lines| ==> r[k].product == lines[k].product && r[k].quantity == c * lines[k].quantity
  {
    if |lines| == 0 then [] else [lines[0].(quantity := c * lines[0].quantity)] + Scale(lines[1..], c)
  }

  /** Both totals are linear in the quantities: scaling every quantity scales them. */
  lemma {:induction false} TotalsScale(lines: seq<Line>, c: int)
    ensures TotalValue(Scale(lines, c)) == c * TotalValue(lines)
    ensures TotalQuantity(Scale(lines, c)) == c * TotalQuantity(lines)
  {
    if |lines| > 0 {
      var s := Scale(lines, c);
      assert s[1..] == Scale(lines[1..], c);
      TotalsScale(lines[1..], c);
      var p := lines[0].product.price;
      var q := lines[0].quantity;
      assert p * (c * q) == c * (p * q);
      assert c * (p * q) + c * TotalValue(lines[1..]) == c * (p * q + TotalValue(lines[1..]));
      assert c * q + c * TotalQuantity(lines[1..]) == c * (q + TotalQuantity(lines[1..]));
    }
  }

  /**
   Changing the quantities of the lines with one identity moves the totals
   by exactly that line's difference, when identities are unique.
   */
  lemma {:induction false} TotalsAfterSetQuantity(lines: seq<Line>, id: Id, f: int -> int, j: nat)
    requires UniqueIds(lines)
    requires j < |lines| && lines[j].product.id == id
    ensures TotalQuantity(SetQuantities(lines, id, f)) == TotalQuantity(lines) - lines[j].quantity + f(lines[j].quantity)
    ensures TotalValue(SetQuantities(lines, id, f)) ==
      TotalValue(lines) + lines[j].product.price * (f(lines[j].quantity) - lines[j].quantity)
  {
    var r := SetQuantities(lines, id, f);
    var p := lines[j].product.price;
    var q := lines[j].quantity;
    assert p * (f(q) - q) == p * f(q) - p * q;
    if j == 0 {
      assert r[1..] == lines[1..];
    } else {
      assert r[0] == lines[0];
      assert UniqueIds(lines[1..]);
      assert r[1..] == SetQuantities(lines[1..], id, f);
      TotalsAfterSetQuantity(lines[1..], id, f, j - 1);
    }
  }

  /** Selecting a product already present moves the totals by one unit of that line. */
  lemma AddPresentTotals(lines: seq<Line>, p: Product, j: nat)
    requires UniqueIds(lines)
    requires j < |lines| && lines[j].product.id == p.id
    ensures TotalQuantity(AddProduct(lines, p)) == TotalQuantity(lines) + 1
    ensures TotalValue(AddProduct(lines, p)) == TotalValue(lines) + lines[j].product.price
  {
    var q := lines[j].quantity;
    TotalsAfterSetQuantity(lines, p.id, q => q + 1, j);
    assert lines[j].product.price * (q + 1 - q) == lines[j].product.price;
  }

  /** Selecting a new product adds one unit at its price. */
  lemma AddAbsentTotals(lines: seq<Line>, p: Product)
    requires !HasId(lines, p.id)
    ensures TotalQuantity(AddProduct(lines, p)) == TotalQuantity(lines) + 1
    ensures TotalValue(AddProduct(lines, p)) == TotalValue(lines) + p.price
  {
    TotalsAppend(lines, [Line(p, 1)]);
    assert TotalValue([Line(p, 1)]) == p.price * 1 + TotalValue([]);
  }

  /** Adding a product raises the quantity total by exactly one, and the value total by that unit's price. */
  lemma AddProductTotals(lines: seq<Line>, p: Product)
    requires UniqueIds(lines)
    ensures TotalQuantity(AddProduct(lines, p)) == TotalQuantity(lines) + 1
    ensures !HasId(lines, p.id) ==> TotalValue(AddProduct(lines, p)) == TotalValue(lines) + p.price
    ensures forall j :: 0 <= j < |lines| && lines[j].product.id == p.id ==>
      TotalValue(AddProduct(lines, p)) == TotalValue(lines) + lines[j].product.price
  {
    if HasId(lines, p.id) {
      forall j | 0 <= j < |lines| && lines[j].product.id == p.id
        ensures TotalValue(AddProduct(lines, p)) == TotalValue(lines) + lines[j].product.price
      {
        AddPresentTotals(lines, p, j);
      }
      var j :| 0 <= j < |lines| && lines[j].product.id == p.id;
      AddPresentTotals(lines, p, j);
    } else {
      AddAbsentTotals(lines, p);
    }
  }

  /** The reconciler keeps at most one line per identity. */
  lemma AddProductKeepsUnique(lines: seq<Line>, p: Product)
    requires UniqueIds(lines)
    ensures UniqueIds(AddProduct(lines, p))
  {
  }

  /** Removing what was just added as a new line gives back the original lines. */
  lemma AddThenRemove(lines: seq<Line>, p: Product)
    requires !HasId(lines, p.id)
    ensures RemoveProduct(AddProduct(lines, p), p.id) == lines
  {
    RemoveIdAppend(lines, [Line(p, 1)], p.id);
    assert RemoveId([Line(p, 1)], p.id) == [];
  }

  /** The reconciler's invariant: one line per identity, every quantity at least 1. */
  predicate WellFormed(lines: seq<Line>) {
    UniqueIds(lines) && AllPositive(lines)
  }

  /** Selecting, +/- and the trash button each keep the reconciler's invariant. */
  lemma ReconcilerKeepsWellFormed(lines: seq<Line>, p: Product, id: Id, change: int)
    requires WellFormed(lines)
    ensures WellFormed(AddProduct(lines, p))
    ensures WellFormed(ChangeQuantity(lines, id, change))
    ensures WellFormed(RemoveProduct(lines, id))
  {
    AddKeepsWellFormed(lines, p);
    ChangeKeepsWellFormed(lines, id, change);
    RemoveKeepsWellFormed(lines, id);
  }

  lemma AddKeepsWellFormed(lines: seq<Line>, p: Product)
    requires WellFormed(lines)
    ensures WellFormed(AddProduct(lines, p))
  {
    AddProductKeepsUnique(lines, p);
  }

  lemma ChangeKeepsWellFormed(lines: seq<Line>, id: Id, change: int)
    requires WellFormed(lines)
    ensures WellFormed(ChangeQuantity(lines, id, change))
  {
    var r := ChangeQuantity(lines, id, change);
    assert forall k :: 0 <= k < |r| ==> r[k].product.id == lines[k].product.id;
  }

  lemma RemoveKeepsWellFormed(lines: seq<Line>, id: Id)
    requires WellFormed(lines)
    ensures WellFormed(RemoveProduct(lines, id))
  {
    RemoveIdKeepsUnique(lines, id);
    SubseqMembers(RemoveProduct(lines, id), lines);
  }

  /** `lines.map(p => p.category)`. */
  function Categories(lines: seq<Line>): (r: seq<string>)
    ensures |r| == |lines|
    ensures forall k :: 0 <= k < |lines| ==> r[k] == lines[k].product.category
  {
    seq(|lines|, k requires 0 <= k < |lines| => lines[k].product.category)
  }

  /**
   `[...new Set(lines.map(p => p.category))]`: each category of the lines
   exactly once, in the order of first occurrence.
   */
  method UniqueCategories(lines: seq<Line>) returns (cats: seq<string>)
    ensures forall c :: c in cats <==> c in Categories(lines)
    ensures NoDuplicates(cats)
    ensures forall i, j :: 0 <= i < j < |cats| ==>
      FirstIndex(Categories(lines), cats[i]) < FirstIndex(Categories(lines), cats[j])
  {
    var all := Categories(lines);
    cats := [];
    var k := 0;
    while k < |all|
      invariant 0 <= k <= |all|
      // stated over `all` itself so that `FirstIndex(all, _)` below is well defined
      invariant forall c :: c in cats ==> c in all
      invariant forall c :: c in cats <==> c in all[..k]
      invariant NoDuplicates(cats)
      invariant forall i :: 0 <= i < |cats| ==> FirstIndex(all, cats[i]) < k
      invariant forall i, j :: 0 <= i < j < |cats| ==> FirstIndex(all, cats[i]) < FirstIndex(all, cats[j])
    {
      assert all[..k + 1] == all[..k] + [all[k]];
      if all[k] !in cats {
        var f := FirstIndex(all, all[k]);
        assert forall m :: 0 <= m < k ==> all[..k][m] == all[m];
        assert forall m :: 0 <= m < f ==> all[..f][m] == all[m];
        assert f == k;
        cats := cats + [all[k]];
      }
      k := k + 1;
    }
    assert all[..k] == all;
  }

  // ---------------------------------------------------------------------
  // Creation gate
  // ---------------------------------------------------------------------

  /** The creator's form state. */
  datatype Draft = Draft(name: string, description: string, lines: seq<Line>)

  /** The combo object assembled on creation. */
  datatype NewCombo = NewCombo(name: string, description: string, products: seq<Line>, totalValue: int, createdAt: string)

  datatype CreateError = TooFewProducts

  /** The "create" button is enabled exactly when this holds. */
  predicate CanCreate(lines: seq<Line>) {
    |lines| >= 2
  }

  /**
   Creating a combo: rejected before anything is built when fewer than two
   lines are selected; otherwise the draft becomes a combo carrying its
   value total. The creation date is a parameter.
   */
  function CreateCombo(d: Draft, createdAt: string): (r: Result<NewCombo, CreateError>)
    ensures r.Failure? <==> |d.lines| < 2
    ensures r.Failure? ==> r.error == TooFewProducts
    ensures r.Success? ==> r.value.products == d.lines && r.value.totalValue == TotalValue(d.lines)
    ensures r.Success? ==> r.value.name == d.name && r.value.description == d.description && r.value.createdAt == createdAt
  {
    if |d.lines| < 2 then Failure(TooFewProducts)
    else Success(NewCombo(d.name, d.description, d.lines, TotalValue(d.lines), createdAt))
  }

  /** The button state and the gate inside the handler agree. */
  lemma CreateGateMatchesButton(d: Draft, createdAt: string)
    ensures CreateCombo(d, createdAt).Success? <==> CanCreate(d.lines)
  {
  }

  // ---------------------------------------------------------------------
  // AI rules
  // ---------------------------------------------------------------------

  /** A rule offered by the AI suggestion panel. */
  datatype AiRule = AiRule(
    id: string,
    name: string,
    description: string,
    suggestedProducts: seq<Id>,
    minProducts: int,
    maxProducts: int,
    suggestedDiscount: int,
    targetSegment: string)

  predicate InCatalog(catalog: seq<Product>, id: Id) {
    exists k :: 0 <= k < |catalog| && catalog[k].id == id
  }

  /** `catalog.find(p => p.id === id)`: the first product with that identity, if any. */
  function FindProduct(catalog: seq<Product>, id: Id): (r: Option<Product>)
    ensures r.Some? <==> InCatalog(catalog, id)
    ensures r.Some? ==> r.value.id == id
    ensures r.Some? ==>
      exists k :: 0 <= k < |catalog| && catalog[k] == r.value && (forall m :: 0 <= m < k ==> catalog[m].id != id)
  {
    if |catalog| == 0 then None
    else if catalog[0].id == id then Some(catalog[0])
    else
      var r := FindProduct(catalog[1..], id);
      if r.Some? then
        var k :| 0 <= k < |catalog[1..]| && catalog[1..][k] == r.value &&
          (forall m :: 0 <= m < k ==> catalog[1..][m].id != id);
        assert catalog[k + 1] == r.value;
        assert forall m :: 1 <= m < k + 1 ==> catalog[m] == catalog[1..][m - 1];
        r
      else r
  }

  /** The rule's product identities looked up in the catalog, unknown ones dropped, each at quantity 1. */
  function SuggestedLines(catalog: seq<Product>, ids: seq<Id>): (r: seq<Line>)
    ensures |r| <= |ids|
    ensures forall k :: 0 <= k < |r| ==> r[k].quantity == 1 && r[k].product in catalog && r[k].product.id in ids
    ensures forall k :: 0 <= k < |r| ==> FindProduct(catalog, r[k].product.id) == Some(r[k].product)
  {
    if |ids| == 0 then []
    else
      var rest := SuggestedLines(catalog, ids[1..]);
      match FindProduct(catalog, ids[0])
      case Some(p) => [Line(p, 1)] + rest
      case None => rest
  }

  /** Identities of the lines, in order. */
  function LineIds(lines: seq<Line>): (r: seq<Id>)
    ensures |r| == |lines|
    ensures forall k :: 0 <= k < |lines| ==> r[k] == lines[k].product.id
  {
    seq(|lines|, k requires 0 <= k < |lines| => lines[k].product.id)
  }

  /** `LineIds` of a line put in front of others. */
  lemma LineIdsCons(l: Line, rest: seq<Line>)
    ensures LineIds([l] + rest) == [l.product.id] + LineIds(rest)
  {
    var a := LineIds([l] + rest);
    var b := [l.product.id] + LineIds(rest);
    assert |a| == |b|;
    forall k | 0 <= k < |a|
      ensures a[k] == b[k]
    {
      if k > 0 {
        assert ([l] + rest)[k] == rest[k - 1];
      }
    }
  }

  /**
   The lines a rule produces are, in the rule's order, exactly the rule's
   identities that the catalog knows.
   */
  lemma {:induction false} SuggestedLinesIds(catalog: seq<Product>, ids: seq<Id>)
    ensures LineIds(SuggestedLines(catalog, ids)) == Filter(ids, (id: Id) => InCatalog(catalog, id))
  {
    if |ids| > 0 {
      var keep := (id: Id) => InCatalog(catalog, id);
      SuggestedLinesIds(catalog, ids[1..]);
      var rest := SuggestedLines(catalog, ids[1..]);
      var found := FindProduct(catalog, ids[0]);
      if found.Some? {
        assert keep(ids[0]);
        assert Filter(ids, keep) == [ids[0]] + Filter(ids[1..], keep);
        assert SuggestedLines(catalog, ids) == [Line(found.value, 1)] + rest;
        LineIdsCons(Line(found.value, 1), rest);
      } else {
        assert !keep(ids[0]);
        assert Filter(ids, keep) == Filter(ids[1..], keep);
        assert SuggestedLines(catalog, ids) == rest;
      }
    }
  }

  /** When the catalog knows every identity of the rule, the lines follow the rule one-to-one. */
  lemma AllSuggestedFound(catalog: seq<Product>, ids: seq<Id>)
    requires forall k :: 0 <= k < |ids| ==> InCatalog(catalog, ids[k])
    ensures |SuggestedLines(catalog, ids)| == |ids|
    ensures forall k :: 0 <= k < |ids| ==> SuggestedLines(catalog, ids)[k].product.id == ids[k]
  {
    SuggestedLinesIds(catalog, ids);
    FilterKeepsAll(ids, (id: Id) => InCatalog(catalog, id));
  }

  /**
   Applying a rule: name and description come from the rule and the
   selection is replaced wholesale by the rule's products; nothing of the
   previous selection survives.
   */
  function ApplyRule(d: Draft, rule: AiRule, catalog: seq<Product>): (r: Draft)
    ensures r.name == rule.name && r.description == rule.description
    ensures |r.lines| <= |rule.suggestedProducts|
    ensures forall k :: 0 <= k < |r.lines| ==>
      r.lines[k].quantity == 1 && r.lines[k].product in catalog && r.lines[k].product.id in rule.suggestedProducts
    ensures LineIds(r.lines) == Filter(rule.suggestedProducts, (id: Id) => InCatalog(catalog, id))
    ensures forall k :: 0 <= k < |r.lines| ==> FindProduct(catalog, r.lines[k].product.id) == Some(r.lines[k].product)
  {
    SuggestedLinesIds(catalog, rule.suggestedProducts);
    Draft(rule.name, rule.description, SuggestedLines(catalog, rule.suggestedProducts))
  }
}

=== FILE: combo_management.dfy ===
/**
 The combo management screen: the searchable, status-filtered combo list,
 the status toggle, delete and save updates of that list, and the edit
 draft's own reconciler (duplicate adds ignored, absolute quantities, a
 total that counts a zero quantity as one).
 */
module ComboManagement {
  import opened Seqs
  import opened Text
  import opened Items

  const Active := "active"
  const Paused := "paused"
  /** The status filter's "every status" choice. */
  const AllStatuses := "all"

  /**
   A combo as listed. `id` is absent for a combo not yet stored. The status
   arrives from the backend as text; the screen offers "active" and "paused".
   */
  datatype Combo = Combo(
    id: Option<Id>,
    name: string,
    description: string,
    products: seq<Line>,
    totalValue: int,
    createdAt: string,
    status: string)

  // ---------------------------------------------------------------------
  // List filter
  // ---------------------------------------------------------------------

  /** The lower-cased name, or the lower-cased name of one of its products, contains the lower-cased term. */
  predicate MatchesSearch(c: Combo, term: string, lower: string -> string) {
    Contains(lower(c.name), lower(term)) ||
    exists k :: 0 <= k < |c.products| && Contains(lower(c.products[k].product.name), lower(term))
  }

  predicate MatchesStatus(c: Combo, statusFilter: string) {
    statusFilter == AllStatuses || c.status == statusFilter
  }

  /** The combos shown for a search term and a status filter, in list order. */
  function FilterCombos(combos: seq<Combo>, term: string, statusFilter: string, lower: string -> string): (r: seq<Combo>)
    ensures IsSubseq(r, combos)
    ensures |r| == CountIf(combos, (c: Combo) => MatchesSearch(c, term, lower) && MatchesStatus(c, statusFilter))
    ensures forall k :: 0 <= k < |r| ==> r[k] in combos && MatchesSearch(r[k], term, lower) && MatchesStatus(r[k], statusFilter)
    ensures forall k :: 0 <= k < |combos| && MatchesSearch(combos[k], term, lower) && MatchesStatus(combos[k], statusFilter) ==>
      combos[k] in r
  {
    Filter(combos, (c: Combo) => MatchesSearch(c, term, lower) && MatchesStatus(c, statusFilter))
  }

  /** An empty search term (after lower-casing) with "all" statuses shows the whole list. */
  lemma EmptySearchShowsAll(combos: seq<Combo>, lower: string -> string)
    requires lower("") == ""
    ensures FilterCombos(combos, "", AllStatuses, lower) == combos
  {
    forall k | 0 <= k < |combos|
      ensures MatchesSearch(combos[k], "", lower)
    {
      EmptyTermMatches(lower(combos[k].name));
    }
    FilterKeepsAll(combos, (c: Combo) => MatchesSearch(c, "", lower) && MatchesStatus(c, AllStatuses));
  }

  // ---------------------------------------------------------------------
  // List updates
  // ---------------------------------------------------------------------

  /** "active" becomes "paused"; any other status becomes "active". */
  function Toggled(status: string): (r: string)
    ensures r == Active || r == Paused
    ensures r != status || (status != Active && status != Paused)
  {
    if status == Active then Paused else Active
  }

  /** The status switch of one row: only combos with that identity change, and only in status. */
  function ToggleStatus(combos: seq<Combo>, id: Option<Id>): (r: seq<Combo>)
    ensures |r| == |combos|
    ensures forall k :: 0 <= k < |combos| && combos[k].id != id ==> r[k] == combos[k]
    ensures forall k :: 0 <= k < |combos| && combos[k].id == id ==>
      r[k].status == Toggled(combos[k].status) && r[k].(status := combos[k].status) == combos[k]
  {
    MapIf(combos, (c: Combo) => c.id == id, (c: Combo) => c.(status := Toggled(c.status)))
  }

  /** Toggling twice restores every list whose statuses are all "active" or "paused". */
  lemma ToggleStatusTwice(combos: seq<Combo>, id: Option<Id>)
    requires forall k :: 0 <= k < |combos| ==> combos[k].status == Active || combos[k].status == Paused
    ensures ToggleStatus(ToggleStatus(combos, id), id) == combos
  {
    var twice := ToggleStatus(ToggleStatus(combos, id), id);
    forall k | 0 <= k < |combos|
      ensures twice[k] == combos[k]
    {
      if combos[k].id == id {
        assert twice[k].status == combos[k].status;
      }
    }
  }

  /** A status outside the two known ones is not restored by two toggles: it settles on "paused". */
  lemma UnknownStatusNotRestored(status: string)
    requires status != Active && status != Paused
    ensures Toggled(Toggled(status)) == Paused != status
  {
  }

  /** After a successful delete the list loses exactly the combos with that identity. */
  function RemoveCombo(combos: seq<Combo>, id: Option<Id>): (r: seq<Combo>)
    ensures IsSubseq(r, combos)
    ensures |r| == CountIf(combos, (c: Combo) => c.id != id)
    ensures forall k :: 0 <= k < |r| ==> r[k].id != id
    ensures forall k :: 0 <= k < |combos| && combos[k].id != id ==> combos[k] in r
  {
    Filter(combos, (c: Combo) => c.id != id)
  }

  lemma RemoveComboIdempotent(combos: seq<Combo>, id: Option<Id>)
    ensures RemoveCombo(RemoveCombo(combos, id), id) == RemoveCombo(combos, id)
  {
    FilterIdempotent(combos, (c: Combo) => c.id != id);
  }

  /** `!editingCombo.id`: no identity, or the empty one. */
  predicate IsUnsaved(c: Combo) {
    c.id.None? || c.id.value == ""
  }

  /**
   The list after a save: an unsaved draft's stored result is appended; a
   stored draft's result replaces, in place, every combo with its identity.
   */
  function ApplySave(combos: seq<Combo>, edited: Combo, saved: Combo): (r: seq<Combo>)
    ensures IsUnsaved(edited) ==> |r| == |combos| + 1 && r[..|combos|] == combos && r[|combos|] == saved
    ensures !IsUnsaved(edited) ==> |r| == |combos|
    ensures !IsUnsaved(edited) ==> forall k :: 0 <= k < |combos| ==>
      r[k] == (if combos[k].id == edited.id then saved else combos[k])
  {
    if IsUnsaved(edited) then combos + [saved]
    else MapIf(combos, (c: Combo) => c.id == edited.id, (c: Combo) => saved)
  }

  /**
   Saving an already stored combo, when the store hands back the same
   identity: no combo changes identity, and repeating the save changes
   nothing more.
   */
  lemma ApplySaveStable(combos: seq<Combo>, edited: Combo, saved: Combo)
    requires !IsUnsaved(edited) && saved.id == edited.id
    ensures forall k :: 0 <= k < |combos| ==> ApplySave(combos, edited, saved)[k].id == combos[k].id
    ensures ApplySave(ApplySave(combos, edited, saved), edited, saved) == ApplySave(combos, edited, saved)
  {
    var once := ApplySave(combos, edited, saved);
    var twice := ApplySave(once, edited, saved);
    forall k | 0 <= k < |combos|
      ensures twice[k] == once[k]
    {
      if combos[k].id == edited.id {
        assert once[k] == saved;
      } else {
        assert once[k] == combos[k];
      }
    }
  }

  // ---------------------------------------------------------------------
  // Edit draft
  // ---------------------------------------------------------------------

  /** Adding in the edit dialog: ignored without a draft or when the identity is present; otherwise appended at quantity 1. */
  function AddToEdit(edit: Option<Combo>, p: Product): (r: Option<Combo>)
    ensures edit.None? ==> r.None?
    ensures edit.Some? && HasId(edit.value.products, p.id) ==> r == edit
    ensures edit.Some? && !HasId(edit.value.products, p.id) ==>
      r.Some? && r.value.(products := edit.value.products) == edit.value
    ensures edit.Some? && !HasId(edit.value.products, p.id) ==>
      r.value.products == edit.value.products + [Line(p, 1)]
  {
    match edit
    case None => None
    case Some(c) =>
      if HasId(c.products, p.id) then edit
      else Some(c.(products := c.products + [Line(p, 1)]))
  }

  /** The edit add never introduces a second line for an identity. */
  lemma AddToEditKeepsUnique(edit: Option<Combo>, p: Product)
    requires edit.Some? && UniqueIds(edit.value.products)
    ensures AddToEdit(edit, p).Some? && UniqueIds(AddToEdit(edit, p).value.products)
  {
  }

  /** The matching lines' quantity becomes `max(1, quantity)`: an absolute value, not a change. */
  function SetQuantity(lines: seq<Line>, id: Id, quantity: int): (r: seq<Line>)
    ensures |r| == |lines|
    ensures forall k :: 0 <= k < |lines| ==> r[k].product == lines[k].product
    ensures forall k :: 0 <= k < |lines| && lines[k].product.id == id ==> r[k].quantity == Max(1, quantity) >= 1
    ensures forall k :: 0 <= k < |lines| && lines[k].product.id != id ==> r[k] == lines[k]
  {
    SetQuantities(lines, id, q => Max(1, quantity))
  }

  /** Setting the same quantity again changes nothing. */
  lemma SetQuantityIdempotent(lines: seq<Line>, id: Id, quantity: int)
    ensures SetQuantity(SetQuantity(lines, id, quantity), id, quantity) == SetQuantity(lines, id, quantity)
  {
    var once := SetQuantity(lines, id, quantity);
    var twice := SetQuantity(once, id, quantity);
    assert forall k :: 0 <= k < |lines| ==> twice[k] == once[k];
  }

  function UpdateEditQuantity(edit: Option<Combo>, id: Id, quantity: int): (r: Option<Combo>)
    ensures edit.None? ==> r.None?
    ensures edit.Some? ==> r.Some? && r.value.(products := edit.value.products) == edit.value
    ensures edit.Some? ==> r.value.products == SetQuantity(edit.value.products, id, quantity)
  {
    match edit
    case None => None
    case Some(c) => Some(c.(products := SetQuantity(c.products, id, quantity)))
  }

  function RemoveFromEdit(edit: Option<Combo>, id: Id): (r: Option<Combo>)
    ensures edit.None? ==> r.None?
    ensures edit.Some? ==> r.Some? && r.value.(products := edit.value.products) == edit.value
    ensures edit.Some? ==> IsSubseq(r.value.products, edit.value.products) && !HasId(r.value.products, id)
    ensures edit.Some? ==> |r.value.products| == CountIf(edit.value.products, (l: Line) => l.product.id != id)
    ensures edit.Some? ==> forall k :: 0 <= k < |edit.value.products| && edit.value.products[k].product.id != id ==>
      edit.value.products[k] in r.value.products
  {
    match edit
    case None => None
    case Some(c) => Some(c.(products := RemoveId(c.products, id)))
  }

  /** `quantity || 1`: a zero (or missing) quantity counts as one. */
  function EffectiveQuantity(q: int): (r: int)
    ensures r != 0
    ensures q != 0 ==> r == q
    ensures q == 0 ==> r == 1
  {
    if q != 0 then q else 1
  }

  /** Sum of `price * (quantity || 1)` over the draft's lines. */
  function EditLinesTotal(lines: seq<Line>): int
  {
    if |lines| == 0 then 0
    else lines[0].product.price * EffectiveQuantity(lines[0].quantity) + EditLinesTotal(lines[1..])
  }

  /** The edit dialog's total: 0 without a draft. */
  function EditTotal(edit: Option<Combo>): (r: int)
    ensures edit.None? ==> r == 0
  {
    match edit
    case None => 0
    case Some(c) => EditLinesTotal(c.products)
  }

  /** The body sent on save: the draft with its total recomputed. */
  function SavePayload(edited: Combo): (r: Combo)
    ensures r.(totalValue := edited.totalValue) == edited
    ensures r.totalValue == EditTotal(Some(edited))
  {
    edited.(totalValue := EditLinesTotal(edited.products))
  }
}

=== FILE: cross_view.dfy ===
/**
 How the independent call sites of the line-item logic relate: the edit
 dialog against the creator's reconciler, and the product picker driving
 the creator's selection.
 */
module CrossView {
  import opened Seqs
  import opened Items
  import opened ComboCreator
  import opened ComboManagement
  import opened ProductPicker

  /** For a product not yet present both views append the same line; for one present only the creator changes the list. */
  lemma EditAddAgreesOnNewProducts(c: Combo, p: Product)
    ensures !HasId(c.products, p.id) ==> AddToEdit(Some(c), p).value.products == AddProduct(c.products, p)
    ensures HasId(c.products, p.id) ==> AddToEdit(Some(c), p) == Some(c) && AddProduct(c.products, p) != c.products
  {
    if HasId(c.products, p.id) {
      var j :| 0 <= j < |c.products| && c.products[j].product.id == p.id;
      assert AddProduct(c.products, p)[j].quantity == c.products[j].quantity + 1;
    }
  }

  /** The creator's "+" on a present product is the same as selecting that product again. */
  lemma IncrementIsReselect(lines: seq<Line>, p: Product)
    requires AllPositive(lines)
    requires HasId(lines, p.id)
    ensures ChangeQuantity(lines, p.id, 1) == AddProduct(lines, p)
  {
    var a := ChangeQuantity(lines, p.id, 1);
    var b := AddProduct(lines, p);
    forall k | 0 <= k < |lines|
      ensures a[k] == b[k]
    {
      if lines[k].product.id == p.id {
        assert a[k].quantity == Max(1, lines[k].quantity + 1) == lines[k].quantity + 1;
      }
    }
  }

  /**
   Setting the absolute quantity `q + change` in the edit dialog gives the
   creator's relative change by `change`, on a well-formed selection.
   */
  lemma AbsoluteMatchesRelative(lines: seq<Line>, j: nat, change: int)
    requires AllPositive(lines) && UniqueIds(lines)
    requires j < |lines|
    ensures SetQuantity(lines, lines[j].product.id, lines[j].quantity + change) == ChangeQuantity(lines, lines[j].product.id, change)
  {
    var id := lines[j].product.id;
    var a := SetQuantity(lines, id, lines[j].quantity + change);
    var b := ChangeQuantity(lines, id, change);
    forall k | 0 <= k < |lines|
      ensures a[k] == b[k]
    {
      if lines[k].product.id == id {
        assert k == j;
      }
    }
  }

  /** With no zero quantity the edit total and the creator's value total agree. */
  lemma {:induction false} EditTotalMatchesTotalValue(lines: seq<Line>)
    requires forall k :: 0 <= k < |lines| ==> lines[k].quantity != 0
    ensures EditLinesTotal(lines) == TotalValue(lines)
  {
    if |lines| > 0 {
      EditTotalMatchesTotalValue(lines[1..]);
    }
  }

  /** The lines with every zero quantity read as 1. */
  function ZeroAsOne(lines: seq<Line>): seq<Line>
  {
    MapIf(lines, (l: Line) => l.quantity == 0, (l: Line) => l.(quantity := 1))
  }

  /**
   For every draft, the edit total is the creator's value total of the same
   lines once each zero quantity is read as 1.
   */
  lemma {:induction false} EditTotalIsTotalWithZeroAsOne(lines: seq<Line>)
    ensures EditLinesTotal(lines) == TotalValue(ZeroAsOne(lines))
  {
    if |lines| > 0 {
      var m := ZeroAsOne(lines);
      assert m[1..] == ZeroAsOne(lines[1..]);
      EditTotalIsTotalWithZeroAsOne(lines[1..]);
    }
  }

  /** A zero quantity still adds one unit's price to the edit total. */
  lemma EditTotalCountsZeroAsOne(p: Product)
    ensures EditLinesTotal([Line(p, 0)]) == p.price
    ensures TotalValue([Line(p, 0)]) == 0
  {
  }

  // ---------------------------------------------------------------------
  // The picker driving the creator
  // ---------------------------------------------------------------------

  /** The creator screen as far as the picker is concerned. */
  datatype Session = Session(picker: Picker, lines: seq<Line>)

  /** One picker event; a handed-over product goes through the creator's reconciler. */
  function Apply(s: Session, e: Event, catalog: seq<Product>, lower: string -> string): Session
  {
    var visible := Visible(catalog, s.lines, s.picker.term, s.picker.category, lower);
    var step := Handle(s.picker, e, visible);
    match step.added
    case Some(p) => Session(step.state, AddProduct(s.lines, p))
    case None => Session(step.state, s.lines)
  }

  function Run(s: Session, events: seq<Event>, catalog: seq<Product>, lower: string -> string): Session
    decreases |events|
  {
    if |events| == 0 then s else Run(Apply(s, events[0], catalog, lower), events[1..], catalog, lower)
  }

  /** A product picked from the dropdown is never already selected, so it is appended at quantity 1. */
  lemma PickedProductIsAppended(s: Session, e: Event, catalog: seq<Product>, lower: string -> string)
    ensures var after := Apply(s, e, catalog, lower);
      |s.lines| <= |after.lines| <= |s.lines| + 1 && after.lines[..|s.lines|] == s.lines &&
      (|after.lines| > |s.lines| ==> after.lines[|s.lines|].quantity == 1)
  {
    var visible := Visible(catalog, s.lines, s.picker.term, s.picker.category, lower);
    var step := Handle(s.picker, e, visible);
    if step.added.Some? {
      var p := step.added.value;
      var k :| 0 <= k < |visible| && visible[k] == p;
      assert !HasId(s.lines, p.id);
    }
  }

  /**
   Whatever the user does in the picker, the selection only grows at its
   end, and it never gets two lines for one product.
   */
  lemma {:induction false} PickerSessionKeepsSelectionUnique(s: Session, events: seq<Event>, catalog: seq<Product>, lower: string -> string)
    requires UniqueIds(s.lines)
    ensures UniqueIds(Run(s, events, catalog, lower).lines)
    ensures |Run(s, events, catalog, lower).lines| >= |s.lines|
    ensures Run(s, events, catalog, lower).lines[..|s.lines|] == s.lines
    decreases |events|
  {
    if |events| > 0 {
      var next := Apply(s, events[0], catalog, lower);
      PickedProductIsAppended(s, events[0], catalog, lower);
      var step := Handle(s.picker, events[0], Visible(catalog, s.lines, s.picker.term, s.picker.category, lower));
      if step.added.Some? {
        AddProductKeepsUnique(s.lines, step.added.value);
      }
      PickerSessionKeepsSelectionUnique(next, events[1..], catalog, lower);
      var final := Run(next, events[1..], catalog, lower).lines;
      assert final[..|next.lines|][..|s.lines|] == final[..|s.lines|];
    }
  }
}

=== FILE: items.dfy ===
/**
 Catalog products and the line items of a combo (a product plus a
 quantity), with the operations both the creator view and the management
 view apply to a list of lines. Products and lines share one identity
 type, compared with `==`.
 */
module Items {
  import opened Seqs

  type Id = string

  /** A catalog product. Prices are whole VND amounts. */
  datatype Product = Product(id: Id, name: string, price: int, category: string, stock: int)

  /** A selected product: the product record as it was when selected, plus a quantity. */
  datatype Line = Line(product: Product, quantity: int)

  predicate HasId(lines: seq<Line>, id: Id) {
    exists k :: 0 <= k < |lines| && lines[k].product.id == id
  }

  /** At most one line per product identity. */
  predicate UniqueIds(lines: seq<Line>) {
    forall i, j :: 0 <= i < j < |lines| ==> lines[i].product.id != lines[j].product.id
  }

  predicate AllPositive(lines: seq<Line>) {
    forall k :: 0 <= k < |lines| ==> lines[k].quantity >= 1
  }

  /**
   `lines.map(p => p.id === id ? { ...p, quantity: f(p.quantity) } : p)`: the
   quantity of every line with identity `id` becomes `f` of its old value;
   products, order and all other lines are untouched.
   */
  function SetQuantities(lines: seq<Line>, id: Id, f: int -> int): (r: seq<Line>)
    ensures |r| == |lines|
    ensures forall k :: 0 <= k < |lines| ==> r[k].product == lines[k].product
    ensures forall k :: 0 <= k < |lines| && lines[k].product.id == id ==> r[k].quantity == f(lines[k].quantity)
    ensures forall k :: 0 <= k < |lines| && lines[k].product.id != id ==> r[k] == lines[k]
  {
    MapIf(lines, (l: Line) => l.product.id == id, (l: Line) => l.(quantity := f(l.quantity)))
  }

  /** `lines.filter(p => p.id !== id)`: drops the lines with identity `id`, keeps the rest in order. */
  function RemoveId(lines: seq<Line>, id: Id): (r: seq<Line>)
    ensures IsSubseq(r, lines)
    ensures |r| == CountIf(lines, (l: Line) => l.product.id != id)
    ensures !HasId(r, id)
    ensures forall k :: 0 <= k < |lines| && lines[k].product.id != id ==> lines[k] in r
    ensures !HasId(lines, id) ==> r == lines
  {
    var r := Filter(lines, (l: Line) => l.product.id != id);
    if !HasId(lines, id) then
      FilterKeepsAll(lines, (l: Line) => l.product.id != id);
      r
    else r
  }

  /** Removing the same identity twice is removing it once. */
  lemma RemoveIdIdempotent(lines: seq<Line>, id: Id)
    ensures RemoveId(RemoveId(lines, id), id) == RemoveId(lines, id)
  {
  }

  /** Removal distributes over concatenation. */
  lemma RemoveIdAppend(a: seq<Line>, b: seq<Line>, id: Id)
    ensures RemoveId(a + b, id) == RemoveId(a, id) + RemoveId(b, id)
  {
    FilterAppend(a, b, (l: Line) => l.product.id != id);
  }

  /** Deleting lines never creates a duplicate identity. */
  lemma {:induction false} SubseqKeepsUnique(a: seq<Line>, b: seq<Line>)
    requires IsSubseq(a, b)
    requires UniqueIds(b)
    ensures UniqueIds(a)
    decreases |b|
  {
    if |a| > 0 {
      if a[0] == b[0] && IsSubseq(a[1..], b[1..]) {
        SubseqKeepsUnique(a[1..], b[1..]);
        SubseqMembers(a[1..], b[1..]);
        forall j | 0 < j < |a|
          ensures a[0].product.id != a[j].product.id
        {
          assert a[j] == a[1..][j - 1];
          var m :| 0 <= m < |b[1..]| && b[1..][m] == a[j];
          assert b[m + 1] == a[j];
        }
      } else {
        SubseqKeepsUnique(a, b[1..]);
      }
    }
  }

  lemma RemoveIdKeepsUnique(lines: seq<Line>, id: Id)
    requires UniqueIds(lines)
    ensures UniqueIds(RemoveId(lines, id))
  {
    SubseqKeepsUnique(RemoveId(lines, id), lines);
  }
}

=== FILE: product_picker.dfy ===
/**
 The product search dropdown: which catalog products it offers, and the
 small state machine of its input box (open or closed, the highlighted
 row, the search term, the category chip).
 */
module ProductPicker {
  import opened Seqs
  import opened Text
  import opened Items

  /** The category chip that selects every category. */
  const AllCategories := "all"

  /** `highlight` is -1 when no row is highlighted. */
  datatype Picker = Picker(isOpen: bool, highlight: int, term: string, category: string)

  const Initial := Picker(false, -1, "", AllCategories)

  /** `OtherKey` stands for every key other than the four the handler tests. */
  datatype Key = Enter | ArrowDown | ArrowUp | Escape | OtherKey

  /** What the user can do to the picker. `Click` names a row of the dropdown by position. */
  datatype Event = Press(key: Key) | Type(text: string) | Focus | ChooseCategory(category: string) | Click(row: int)

  /** The picker's next state, and the product handed to the parent view, if any. */
  datatype Step = Step(state: Picker, added: Option<Product>)

  // ---------------------------------------------------------------------
  // Offered products
  // ---------------------------------------------------------------------

  predicate Offered(p: Product, selected: seq<Line>, term: string, category: string, lower: string -> string) {
    && Contains(lower(p.name), lower(term))
    && (category == AllCategories || p.category == category)
    && !HasId(selected, p.id)
  }

  /**
   The dropdown rows: catalog products, in catalog order, whose lower-cased
   name contains the lower-cased term, in the chosen category, and not
   already selected.
   */
  function Visible(products: seq<Product>, selected: seq<Line>, term: string, category: string, lower: string -> string): (r: seq<Product>)
    ensures IsSubseq(r, products)
    ensures |r| == CountIf(products, (p: Product) => Offered(p, selected, term, category, lower))
    ensures forall k :: 0 <= k < |r| ==> r[k] in products
    ensures forall k :: 0 <= k < |r| ==> Contains(lower(r[k].name), lower(term))
    ensures forall k :: 0 <= k < |r| ==> category == AllCategories || r[k].category == category
    ensures forall k, j :: 0 <= k < |r| && 0 <= j < |selected| ==> r[k].id != selected[j].product.id
    ensures forall k :: 0 <= k < |products| && Offered(products[k], selected, term, category, lower) ==> products[k] in r
  {
    Filter(products, (p: Product) => Offered(p, selected, term, category, lower))
  }

  // ---------------------------------------------------------------------
  // Transitions
  // ---------------------------------------------------------------------

  /** After a product is handed over: term cleared, dropdown closed, nothing highlighted. */
  function AfterAdd(s: Picker): (r: Picker)
    ensures r.term == "" && !r.isOpen && r.highlight == -1 && r.category == s.category
  {
    s.(term := "", isOpen := false, highlight := -1)
  }

  /** A key pressed in the search box; `visible` are the dropdown rows. */
  function PressKey(s: Picker, key: Key, visible: seq<Product>): (r: Step)
    // closed: Enter and ArrowDown open at the first row, anything else is ignored
    ensures !s.isOpen && (key == Enter || key == ArrowDown) ==> r == Step(s.(isOpen := true, highlight := 0), None)
    ensures !s.isOpen && key != Enter && key != ArrowDown ==> r == Step(s, None)
    // open: a product is handed over only by Enter on a real row, and it is that row
    ensures r.added.Some? <==> s.isOpen && key == Enter && 0 <= s.highlight < |visible|
    ensures r.added.Some? ==> r.added.value == visible[s.highlight] && r.state == AfterAdd(s)
    ensures s.isOpen && key == Enter && r.added.None? ==> r.state == s
    // open: the arrows move only the highlight, by one, and not past the ends of the list
    ensures s.isOpen && (key == ArrowDown || key == ArrowUp) ==> r.added.None? && r.state.(highlight := s.highlight) == s
    ensures s.isOpen && key == ArrowDown ==>
      (r.state.highlight == s.highlight + 1 <==> s.highlight < |visible| - 1) &&
      (r.state.highlight == s.highlight || r.state.highlight == s.highlight + 1) &&
      (r.state.highlight <= |visible| - 1 || r.state.highlight == s.highlight)
    ensures s.isOpen && key == ArrowUp ==>
      (r.state.highlight == s.highlight - 1 <==> s.highlight > 0) &&
      (r.state.highlight == s.highlight || r.state.highlight == s.highlight - 1) &&
      (r.state.highlight >= 0 || r.state.highlight == s.highlight)
    // open: Escape closes and clears the highlight; other keys are ignored
    ensures s.isOpen && key == Escape ==> r == Step(s.(isOpen := false, highlight := -1), None)
    ensures s.isOpen && key.OtherKey? ==> r == Step(s, None)
  {
    if !s.isOpen then
      if key == Enter || key == ArrowDown then Step(s.(isOpen := true, highlight := 0), None)
      else Step(s, None)
    else
      match key
      case ArrowDown =>
        Step(s.(highlight := if s.highlight < |visible| - 1 then s.highlight + 1 else s.highlight), None)
      case ArrowUp =>
        Step(s.(highlight := if s.highlight > 0 then s.highlight - 1 else s.highlight), None)
      case Enter =>
        if 0 <= s.highlight < |visible| then Step(AfterAdd(s), Some(visible[s.highlight])) else Step(s, None)
      case Escape =>
        Step(s.(isOpen := false, highlight := -1), None)
      case OtherKey =>
        Step(s, None)
  }

  /** Any event: typing, focusing, choosing a category chip or clicking a row. */
  function Handle(s: Picker, e: Event, visible: seq<Product>): (r: Step)
    ensures e.Press? ==> r == PressKey(s, e.key, visible)
    // typing sets the term, opens the dropdown and clears the highlight
    ensures e.Type? ==> r == Step(Picker(true, -1, e.text, s.category), None)
    ensures e.Focus? ==> r == Step(s.(isOpen := true), None)
    // the chip changes the category only; the highlight is kept
    ensures e.ChooseCategory? ==> r == Step(s.(category := e.category), None)
    ensures e.Click? ==> (r.added.Some? <==> s.isOpen && 0 <= e.row < |visible|)
    ensures e.Click? && r.added.Some? ==> r.added.value == visible[e.row] && r.state == AfterAdd(s)
    ensures e.Click? && r.added.None? ==> r.state == s
    // whatever happens, a handed-over product is one of the rows
    ensures r.added.Some? ==> r.added.value in visible && r.state == AfterAdd(s)
  {
    match e
    case Press(key) => PressKey(s, key, visible)
    case Type(text) => Step(s.(term := text, isOpen := true, highlight := -1), None)
    case Focus => Step(s.(isOpen := true), None)
    case ChooseCategory(category) => Step(s.(category := category), None)
    case Click(row) =>
      // rows are rendered only while the dropdown is open
      if s.isOpen && 0 <= row < |visible| then Step(AfterAdd(s), Some(visible[row])) else Step(s, None)
  }

  /** `-1 <= highlight <= max(0, rows - 1)`: no highlight, a row, or the first slot of an empty list. */
  predicate HighlightInRange(h: int, rows: int) {
    -1 <= h <= Max(0, rows - 1)
  }

  /**
   Every key keeps the highlight in range for the same rows. (Choosing a
   category chip can shrink the rows under a kept highlight; Enter checks
   the index before using it.)
   */
  lemma PressKeyKeepsRange(s: Picker, key: Key, visible: seq<Product>)
    requires HighlightInRange(s.highlight, |visible|)
    ensures HighlightInRange(PressKey(s, key, visible).state.highlight, |visible|)
  {
  }

  /** Pressing keys in turn, with the same rows offered throughout. */
  function PressKeys(s: Picker, keys: seq<Key>, visible: seq<Product>): Picker
    decreases |keys|
  {
    if |keys| == 0 then s else PressKeys(PressKey(s, keys[0], visible).state, keys[1..], visible)
  }

  /** The picker's first render has no highlight, which is in range for any number of rows. */
  lemma InitialArrowKeysStayInRange(keys: seq<Key>, visible: seq<Product>)
    requires forall k :: 0 <= k < |keys| ==> keys[k] == ArrowDown || keys[k] == ArrowUp
    ensures HighlightInRange(PressKeys(Initial, keys, visible).highlight, |visible|)
    ensures PressKeys(Initial, keys, visible).term == ""
  {
    ArrowKeysStayInRange(Initial, keys, visible);
  }

  /** Arrow keys only: the dropdown stays as it is, the term stays, and the highlight stays in range. */
  lemma {:induction false} ArrowKeysStayInRange(s: Picker, keys: seq<Key>, visible: seq<Product>)
    requires HighlightInRange(s.highlight, |visible|)
    requires forall k :: 0 <= k < |keys| ==> keys[k] == ArrowDown || keys[k] == ArrowUp
    ensures HighlightInRange(PressKeys(s, keys, visible).highlight, |visible|)
    ensures PressKeys(s, keys, visible).term == s.term
    ensures s.isOpen ==> PressKeys(s, keys, visible).isOpen
    decreases |keys|
  {
    if |keys| > 0 {
      PressKeyKeepsRange(s, keys[0], visible);
      ArrowKeysStayInRange(PressKey(s, keys[0], visible).state, keys[1..], visible);
    }
  }
}

=== FILE: rule_builder.dfy ===
/**
 The rule builder panel: a draft rule whose conditions and actions are
 edited as indexed lists, the save gate on a non-empty name, and the
 active switch of the saved rules.
 */
module RuleBuilder {
  import opened Seqs

  datatype ConditionType = CategoryCondition | PriceRange | StockLevel | Popularity

  datatype Operator = EqualsOp | GreaterThan | LessThan | ContainsOp

  /** A condition value is typed text or a number. */
  datatype ConditionValue = TextValue(text: string) | NumberValue(number: int)

  datatype Condition = Condition(kind: ConditionType, operator: Operator, value: ConditionValue)

  datatype ActionType = DiscountPercentage | DiscountFixed | BundleSize

  datatype Action = Action(kind: ActionType, value: int)

  datatype Rule = Rule(
    id: string,
    name: string,
    description: string,
    conditions: seq<Condition>,
    actions: seq<Action>,
    isActive: bool)

  /** The rule being composed in the form. */
  datatype Draft = Draft(
    name: string,
    description: string,
    conditions: seq<Condition>,
    actions: seq<Action>,
    isActive: bool)

  /** The panel: saved rules, the draft, and whether the form is shown. */
  datatype Builder = Builder(rules: seq<Rule>, draft: Draft, isCreating: bool)

  /** The row "add condition" appends. */
  const NewCondition := Condition(CategoryCondition, EqualsOp, TextValue(""))

  /** The row "add action" appends. */
  const NewAction := Action(DiscountPercentage, 0)

  /** The draft the form starts from and returns to after a save. */
  const EmptyDraft := Draft("", "", [], [], true)

  // ---------------------------------------------------------------------
  // Conditions
  // ---------------------------------------------------------------------

  function AddCondition(d: Draft): (r: Draft)
    ensures |r.conditions| == |d.conditions| + 1
    ensures r.conditions[..|d.conditions|] == d.conditions
    ensures r.conditions[|d.conditions|] == NewCondition
    ensures r.(conditions := d.conditions) == d
  {
    d.(conditions := d.conditions + [NewCondition])
  }

  /** Drops the condition at `index`; an index outside the list changes nothing. */
  function RemoveCondition(d: Draft, index: int): (r: Draft)
    ensures 0 <= index < |d.conditions| ==> |r.conditions| == |d.conditions| - 1
    ensures 0 <= index < |d.conditions| ==> forall k :: 0 <= k < index ==> r.conditions[k] == d.conditions[k]
    ensures 0 <= index < |d.conditions| ==> forall k :: index <= k < |r.conditions| ==> r.conditions[k] == d.conditions[k + 1]
    ensures !(0 <= index < |d.conditions|) ==> r == d
    ensures r.(conditions := d.conditions) == d
  {
    DropPositionIsRemoveAt(d.conditions, index, 0);
    d.(conditions := DropPosition(d.conditions, index, 0))
  }

  /** Which field of a condition an edit sets, and to what. */
  datatype ConditionEdit = SetConditionType(kind: ConditionType) | SetOperator(operator: Operator) | SetConditionValue(value: ConditionValue)

  /** `{ ...c, [field]: value }`: the named field takes the new value, the others keep theirs. */
  function EditCondition(c: Condition, e: ConditionEdit): (r: Condition)
    ensures e.SetConditionType? ==> r.kind == e.kind && r.operator == c.operator && r.value == c.value
    ensures e.SetOperator? ==> r.kind == c.kind && r.operator == e.operator && r.value == c.value
    ensures e.SetConditionValue? ==> r.kind == c.kind && r.operator == c.operator && r.value == e.value
  {
    match e
    case SetConditionType(kind) => c.(kind := kind)
    case SetOperator(operator) => c.(operator := operator)
    case SetConditionValue(value) => c.(value := value)
  }

  /** Sets one field of the condition at `index`; every other condition is untouched. */
  function UpdateCondition(d: Draft, index: int, e: ConditionEdit): (r: Draft)
    requires 0 <= index < |d.conditions|
    ensures |r.conditions| == |d.conditions|
    ensures r.conditions[index] == EditCondition(d.conditions[index], e)
    ensures forall k :: 0 <= k < |d.conditions| && k != index ==> r.conditions[k] == d.conditions[k]
    ensures r.(conditions := d.conditions) == d
  {
    d.(conditions := d.conditions[index := EditCondition(d.conditions[index], e)])
  }

  /** Editing row `index` and then removing it is the same as removing it: the edit touched that row only. */
  lemma UpdateThenRemoveCondition(d: Draft, index: int, e: ConditionEdit)
    requires 0 <= index < |d.conditions|
    ensures RemoveCondition(UpdateCondition(d, index, e), index) == RemoveCondition(d, index)
  {
    var a := RemoveCondition(UpdateCondition(d, index, e), index);
    var b := RemoveCondition(d, index);
    assert a.conditions == b.conditions;
  }

  /** Removing the condition just added gives back the draft. */
  lemma AddThenRemoveCondition(d: Draft)
    ensures RemoveCondition(AddCondition(d), |d.conditions|) == d
  {
    var added := AddCondition(d);
    assert RemoveCondition(added, |d.conditions|).conditions == d.conditions;
  }

  // ---------------------------------------------------------------------
  // Actions
  // ---------------------------------------------------------------------

  function AddAction(d: Draft): (r: Draft)
    ensures |r.actions| == |d.actions| + 1
    ensures r.actions[..|d.actions|] == d.actions
    ensures r.actions[|d.actions|] == NewAction
    ensures r.(actions := d.actions) == d
  {
    d.(actions := d.actions + [NewAction])
  }

  /** Drops the action at `index`; an index outside the list changes nothing. */
  function RemoveAction(d: Draft, index: int): (r: Draft)
    ensures 0 <= index < |d.actions| ==> |r.actions| == |d.actions| - 1
    ensures 0 <= index < |d.actions| ==> forall k :: 0 <= k < index ==> r.actions[k] == d.actions[k]
    ensures 0 <= index < |d.actions| ==> forall k :: index <= k < |r.actions| ==> r.actions[k] == d.actions[k + 1]
    ensures !(0 <= index < |d.actions|) ==> r == d
    ensures r.(actions := d.actions) == d
  {
    DropPositionIsRemoveAt(d.actions, index, 0);
    d.(actions := DropPosition(d.actions, index, 0))
  }

  datatype ActionEdit = SetActionType(kind: ActionType) | SetActionValue(value: int)

  function EditAction(a: Action, e: ActionEdit): (r: Action)
    ensures e.SetActionType? ==> r.kind == e.kind && r.value == a.value
    ensures e.SetActionValue? ==> r.kind == a.kind && r.value == e.value
  {
    match e
    case SetActionType(kind) => a.(kind := kind)
    case SetActionValue(value) => a.(value := value)
  }

  /** Sets one field of the action at `index`; every other action is untouched. */
  function UpdateAction(d: Draft, index: int, e: ActionEdit): (r: Draft)
    requires 0 <= index < |d.actions|
    ensures |r.actions| == |d.actions|
    ensures r.actions[index] == EditAction(d.actions[index], e)
    ensures forall k :: 0 <= k < |d.actions| && k != index ==> r.actions[k] == d.actions[k]
    ensures r.(actions := d.actions) == d
  {
    d.(actions := d.actions[index := EditAction(d.actions[index], e)])
  }

  /** Editing action `index` and then removing it is the same as removing it. */
  lemma UpdateThenRemoveAction(d: Draft, index: int, e: ActionEdit)
    requires 0 <= index < |d.actions|
    ensures RemoveAction(UpdateAction(d, index, e), index) == RemoveAction(d, index)
  {
    var a := RemoveAction(UpdateAction(d, index, e), index);
    var b := RemoveAction(d, index);
    assert a.actions == b.actions;
  }

  /** Removing the action just added gives back the draft. */
  lemma AddThenRemoveAction(d: Draft)
    ensures RemoveAction(AddAction(d), |d.actions|) == d
  {
    var added := AddAction(d);
    assert RemoveAction(added, |d.actions|).actions == d.actions;
  }

  // ---------------------------------------------------------------------
  // Saving and toggling
  // ---------------------------------------------------------------------

  /**
   Saving: only a draft with a non-empty name is saved. The new rule (with
   the given identity, standing in for the clock-derived one) is appended,
   always active, and the form resets to the empty draft and closes.
   */
  function SaveRule(b: Builder, newId: string): (r: Builder)
    ensures b.draft.name == "" ==> r == b
    ensures b.draft.name != "" ==> |r.rules| == |b.rules| + 1 && r.rules[..|b.rules|] == b.rules
    ensures b.draft.name != "" ==>
      r.rules[|b.rules|] == Rule(newId, b.draft.name, b.draft.description, b.draft.conditions, b.draft.actions, true)
    ensures b.draft.name != "" ==> r.draft == EmptyDraft && !r.isCreating
  {
    if b.draft.name == "" then b
    else
      var d := b.draft;
      // `isActive || true`
      var rule := Rule(newId, d.name, d.description, d.conditions, d.actions, d.isActive || true);
      Builder(b.rules + [rule], EmptyDraft, false)
  }

  /** A saved rule is active even when the draft's own flag was off. */
  lemma SavedRuleIsActive(b: Builder, newId: string)
    requires b.draft.name != ""
    ensures SaveRule(b, newId).rules[|b.rules|].isActive
  {
  }

  /** Flips the active flag of the rules with that identity. */
  function ToggleRule(rules: seq<Rule>, id: string): (r: seq<Rule>)
    ensures |r| == |rules|
    ensures forall k :: 0 <= k < |rules| && rules[k].id != id ==> r[k] == rules[k]
    ensures forall k :: 0 <= k < |rules| && rules[k].id == id ==>
      r[k].isActive == !rules[k].isActive && r[k].(isActive := rules[k].isActive) == rules[k]
  {
    MapIf(rules, (rule: Rule) => rule.id == id, (rule: Rule) => rule.(isActive := !rule.isActive))
  }

  /**
   Toggling a freshly saved rule, whose identity no earlier rule has, flips
   that rule alone: the earlier rules are untouched and the new one turns
   inactive.
   */
  lemma ToggleSavedRule(b: Builder, newId: string)
    requires b.draft.name != ""
    requires forall k :: 0 <= k < |b.rules| ==> b.rules[k].id != newId
    ensures |ToggleRule(SaveRule(b, newId).rules, newId)| == |b.rules| + 1
    ensures ToggleRule(SaveRule(b, newId).rules, newId)[..|b.rules|] == b.rules
    ensures ToggleRule(SaveRule(b, newId).rules, newId)[|b.rules|] ==
      Rule(newId, b.draft.name, b.draft.description, b.draft.conditions, b.draft.actions, false)
  {
    var saved := SaveRule(b, newId).rules;
    var toggled := ToggleRule(saved, newId);
    assert forall k :: 0 <= k < |b.rules| ==> saved[k] == b.rules[k];
    assert toggled[..|b.rules|] == b.rules;
  }

  /** Toggling twice is the identity. */
  lemma ToggleRuleTwice(rules: seq<Rule>, id: string)
    ensures ToggleRule(ToggleRule(rules, id), id) == rules
  {
    var twice := ToggleRule(ToggleRule(rules, id), id);
    assert forall k :: 0 <= k < |rules| ==> twice[k] == rules[k];
  }
}

=== FILE: scenarios.dfy ===
/**
 Worked examples on products from the creator screen's sample catalog and a sample AI rule.
 */
module Scenarios {
  import opened Seqs
  import opened Items
  import opened ComboCreator

  const IPhone := Product("1", "iPhone 15 Pro", 29990000, "Electronics", 50)
  const MacBook := Product("2", "MacBook Air M2", 28990000, "Electronics", 30)
  const IPad := Product("4", "iPad Air", 14990000, "Electronics", 25)
  const Watch := Product("5", "Apple Watch Series 9", 9990000, "Electronics", 75)

  /** Selecting the iPhone twice gives one line of two, worth twice its price. */
  lemma SelectTwiceMerges()
    ensures AddProduct(AddProduct([], IPhone), IPhone) == [Line(IPhone, 2)]
    ensures TotalValue([Line(IPhone, 2)]) == 59980000
  {
    assert [Line(IPhone, 1)][0].product.id == IPhone.id;
  }

  /** "-" on a line of one keeps the line at one: the selection, and the create gate, are unchanged. */
  lemma MinusOnSingleUnitKeepsLine()
    ensures ChangeQuantity([Line(IPhone, 1), Line(MacBook, 1)], "1", -1) == [Line(IPhone, 1), Line(MacBook, 1)]
    ensures CanCreate(ChangeQuantity([Line(IPhone, 1), Line(MacBook, 1)], "1", -1))
  {
    var lines := [Line(IPhone, 1), Line(MacBook, 1)];
    assert AllPositive(lines);
    var r := ChangeQuantity(lines, "1", -1);
    assert r[0] == lines[0] && r[1] == lines[1];
  }

  /**
   A rule listing the watch, an identity the catalog lacks, and the iPad
   replaces any selection with the watch and the iPad, in the rule's order.
   */
  lemma RuleReplacesSelectionInRuleOrder(d: Draft)
    ensures ApplyRule(d, AiRule("9", "Học tập", "", ["5", "7", "4"], 2, 3, 20, "Sinh viên"), [IPad, Watch]).lines ==
      [Line(Watch, 1), Line(IPad, 1)]
  {
    var catalog := [IPad, Watch];
    assert catalog[1..] == [Watch];
    assert FindProduct(catalog[1..], "5") == Some(Watch);
    assert FindProduct(catalog, "5") == Some(Watch);
    assert FindProduct(catalog[1..], "7") == None;
    assert FindProduct(catalog, "7") == None;
    assert FindProduct(catalog, "4") == Some(IPad);
    var ids := ["5", "7", "4"];
    assert ids[1..] == ["7", "4"] && ids[1..][1..] == ["4"] && ids[1..][1..][1..] == [];
  }
}

=== FILE: seqs.dfy ===
/**
 Generic sequence helpers shared by every view: the array `filter` and
 `map`-with-a-condition idioms the screens use, removal by position, and
 the small vocabulary (subsequence, duplicates, first occurrence) their
 contracts are stated in.
 */
module Seqs {

  datatype Option<+T> = None | Some(value: T)

  datatype Result<+T, +E> = Success(value: T) | Failure(error: E)

  function Max(a: int, b: int): int { if a < b then b else a }

  /** `a` is obtained from `b` by deleting zero or more elements; order is kept. */
  predicate IsSubseq<T(==)>(a: seq<T>, b: seq<T>)
    decreases |b|
  {
    if |a| == 0 then true
    else if |b| == 0 then false
    else (a[0] == b[0] && IsSubseq(a[1..], b[1..])) || IsSubseq(a, b[1..])
  }

  lemma {:induction false} SubseqMembers<T>(a: seq<T>, b: seq<T>)
    requires IsSubseq(a, b)
    ensures forall k :: 0 <= k < |a| ==> a[k] in b
    decreases |b|
  {
    if |a| > 0 {
      if a[0] == b[0] && IsSubseq(a[1..], b[1..]) {
        SubseqMembers(a[1..], b[1..]);
        assert forall k :: 1 <= k < |a| ==> a[k] == a[1..][k - 1];
      } else {
        SubseqMembers(a, b[1..]);
      }
    }
  }

  predicate NoDuplicates<T(==)>(s: seq<T>) {
    forall i, j :: 0 <= i < j < |s| ==> s[i] != s[j]
  }

  /** Position of the first occurrence of `x` in `s`. */
  function FirstIndex<T(==)>(s: seq<T>, x: T): (k: nat)
    requires x in s
    ensures k < |s| && s[k] == x && x !in s[..k]
  {
    if s[0] == x then 0
    else
      var k := 1 + FirstIndex(s[1..], x);
      assert s[..k] == [s[0]] + s[1..][..k - 1];
      k
  }

  /** Number of elements satisfying `keep`. */
  function CountIf<T>(s: seq<T>, keep: T -> bool): nat
  {
    if |s| == 0 then 0 else (if keep(s[0]) then 1 else 0) + CountIf(s[1..], keep)
  }

  /** JavaScript's `Array.prototype.filter`: keeps, in order, the elements satisfying `keep`. */
  function Filter<T(==)>(s: seq<T>, keep: T -> bool): (r: seq<T>)
    ensures |r| == CountIf(s, keep) <= |s|
    ensures forall k :: 0 <= k < |r| ==> r[k] in s && keep(r[k])
    ensures forall k :: 0 <= k < |s| && keep(s[k]) ==> s[k] in r
    ensures IsSubseq(r, s)
  {
    if |s| == 0 then []
    else if keep(s[0]) then [s[0]] + Filter(s[1..], keep)
    else Filter(s[1..], keep)
  }

  /** Filtering with a predicate that holds of every element returns the input. */
  lemma {:induction false} FilterKeepsAll<T>(s: seq<T>, keep: T -> bool)
    requires forall k :: 0 <= k < |s| ==> keep(s[k])
    ensures Filter(s, keep) == s
  {
    if |s| > 0 {
      FilterKeepsAll(s[1..], keep);
    }
  }

  /** Filtering twice with the same predicate is filtering once. */
  lemma FilterIdempotent<T>(s: seq<T>, keep: T -> bool)
    ensures Filter(Filter(s, keep), keep) == Filter(s, keep)
  {
    FilterKeepsAll(Filter(s, keep), keep);
  }

  /** Filtering distributes over concatenation. */
  lemma {:induction false} FilterAppend<T>(a: seq<T>, b: seq<T>, keep: T -> bool)
    ensures Filter(a + b, keep) == Filter(a, keep) + Filter(b, keep)
  {
    if |a| > 0 {
      assert (a + b)[0] == a[0];
      assert (a + b)[1..] == a[1..] + b;
      FilterAppend(a[1..], b, keep);
    } else {
      assert a + b == b;
    }
  }

  /** The `map` idiom `xs.map(x => cond(x) ? f(x) : x)`. */
  function MapIf<T>(s: seq<T>, cond: T -> bool, f: T -> T): (r: seq<T>)
    ensures |r| == |s|
    ensures forall k :: 0 <= k < |s| ==> r[k] == (if cond(s[k]) then f(s[k]) else s[k])
  {
    if |s| == 0 then [] else [if cond(s[0]) then f(s[0]) else s[0]] + MapIf(s[1..], cond, f)
  }

  /** Removal of the element at position `i`; any other `i` leaves the sequence as it is. */
  function RemoveAt<T>(s: seq<T>, i: int): (r: seq<T>)
    ensures 0 <= i < |s| ==> |r| == |s| - 1
    ensures 0 <= i < |s| ==> forall k :: 0 <= k < i ==> r[k] == s[k]
    ensures 0 <= i < |s| ==> forall k :: i <= k < |r| ==> r[k] == s[k + 1]
    ensures !(0 <= i < |s|) ==> r == s
  {
    if 0 <= i < |s| then s[..i] + s[i + 1..] else s
  }

  /**
   The index-filter idiom `xs.filter((_, j) => j !== i)`, element by element:
   the element at position `offset + k` of the whole list is kept iff that position is not `i`.
   */
  function DropPosition<T>(s: seq<T>, i: int, offset: int): seq<T>
  {
    if |s| == 0 then []
    else (if offset == i then [] else [s[0]]) + DropPosition(s[1..], i, offset + 1)
  }

  /** The index filter removes exactly the element at `i`, or nothing when `i` is out of range. */
  lemma {:induction false} DropPositionIsRemoveAt<T>(s: seq<T>, i: int, offset: int)
    ensures DropPosition(s, i, offset) == RemoveAt(s, i - offset)
  {
    if |s| > 0 {
      var j := i - offset;
      var rest := DropPosition(s[1..], i, offset + 1);
      DropPositionIsRemoveAt(s[1..], i, offset + 1);
      assert rest == RemoveAt(s[1..], j - 1);
      if j == 0 {
        assert DropPosition(s, i, offset) == rest;
        assert rest == s[1..];
        assert RemoveAt(s, j) == s[..0] + s[1..];
      } else if 0 < j < |s| {
        assert DropPosition(s, i, offset) == [s[0]] + rest;
        assert rest == s[1..][..j - 1] + s[1..][j..];
        assert s[..j] == [s[0]] + s[1..][..j - 1];
        assert s[j + 1..] == s[1..][j..];
      } else {
        assert DropPosition(s, i, offset) == [s[0]] + rest;
        assert rest == s[1..];
        assert [s[0]] + s[1..] == s;
      }
    }
  }
}

=== FILE: text.dfy ===
/**
 Substring search, the `String.prototype.includes` test every search box
 of the console applies (after lower-casing both sides).
 */
module Text {

  predicate IsPrefix(p: string, s: string) {
    |p| <= |s| && p == s[..|p|]
  }

  /** `hay.includes(needle)`: `needle` starts at some position of `hay`. */
  predicate Contains(hay: string, needle: string)
    decreases |hay|
  {
    IsPrefix(needle, hay) || (|hay| > 0 && Contains(hay[1..], needle))
  }

  /** `needle` occurs in `hay` starting at position `i`. */
  predicate OccursAt(hay: string, needle: string, i: int) {
    0 <= i && i + |needle| <= |hay| && hay[i..i + |needle|] == needle
  }

  /** The recursive search agrees with the positional definition of an occurrence. */
  lemma {:induction false} ContainsIffOccurs(hay: string, needle: string)
    ensures Contains(hay, needle) <==> exists i :: OccursAt(hay, needle, i)
    decreases |hay|
  {
    if IsPrefix(needle, hay) {
      assert OccursAt(hay, needle, 0);
    } else if |hay| > 0 {
      ContainsIffOccurs(hay[1..], needle);
      if Contains(hay[1..], needle) {
        var i :| OccursAt(hay[1..], needle, i);
        assert hay[1..][i..i + |needle|] == hay[i + 1..i + 1 + |needle|];
        assert OccursAt(hay, needle, i + 1);
      }
      if exists i :: OccursAt(hay, needle, i) {
        var i :| OccursAt(hay, needle, i);
        assert i != 0;
        assert hay[1..][i - 1..i - 1 + |needle|] == hay[i..i + |needle|];
        assert OccursAt(hay[1..], needle, i - 1);
      }
    } else {
      assert forall i :: !OccursAt(hay, needle, i);
    }
  }

  /** The empty search term is found in every text. */
  lemma EmptyTermMatches(hay: string)
    ensures Contains(hay, "")
  {
    assert IsPrefix("", hay);
  }
}
